=== FILE: README.md ===
# wasm-tls buffer adapter, modelled in Dafny

`TlsConnection` (crates/wasm-tls/src/lib.rs) wraps a rustls client
connection for a JavaScript host that moves bytes over the socket itself.
The adapter owns three byte buffers and one offset:

- `incoming_tls` with `incoming_tls_offset`: ciphertext received from the
  network, of which the first `offset` bytes were already read by rustls;
- `outgoing_tls`: ciphertext rustls produced, waiting to be sent;
- `plaintext_out`: decrypted data waiting for the upper layer.

This project models the adapter as an immutable `Session` record with pure
transition functions. rustls is not modelled: each of its calls becomes a
value passed to the operation (module `Engine`), bounded only by what the
call can do (`read_tls` consumes at most the slice it is offered, the
plaintext reader writes at most the space it is given). Each operation
returns the session as it stands after the call, including after a
failure, together with its result.

Modules:

- `Buffers` (buffers.dfy): the session record, `IO_BUF_CAP` (16 KiB) and
  `MAX_TLS_BUF_SIZE` (128 KiB), the representation invariant `Inv`.
- `Compaction` (compaction.dfy): `compact_incoming_tls`, as a function and
  as the in-place `copy_within` + `truncate` loop, and the post-read
  clear/compact policy.
- `Engine` (engine.dfy): the answers of rustls as data.
- `Connection` (connection.dfy): `feed_ciphertext`, `write_plaintext`,
  `flush_outgoing_tls`, `take_plaintext`.
- `Stream` (stream.dfy): sequences of calls; conservation of the
  ciphertext stream and in-order delivery of plaintext.

The overflow test in the code compares the whole buffer length
(`incoming_tls.len() + data.len()`), compacts once and compares again. The
model proves that the combined effect is an exact boundary on the
unconsumed bytes: the call fails with `BufferOverflow` exactly when
`(len - offset) + |data| > MAX_TLS_BUF_SIZE`, and a feed that reaches the
bound exactly is admitted. Whenever it fails, the compaction has already
happened.

Error paths are modelled as the code leaves them. A failed `read_tls`
leaves the new data appended and the offset unmoved. A failed
`process_new_packets` comes after the offset has been advanced and the
post-read policy applied. A failed plaintext read leaves `plaintext_out`
padded with the zero bytes of the `resize`. The code sets no flag after an
error, so later calls on the same session are modelled like any other call.

## Model

| member | source | states |
|---|---|---|
| Buffers.Fresh | crates/wasm-tls/src/lib.rs:76-82 | A new connection has empty buffers and offset 0, and satisfies the representation invariant. |
| Compaction.Compact | crates/wasm-tls/src/lib.rs:205-212 | Compaction keeps exactly the unconsumed bytes, resets the offset to 0, shrinks the buffer by the offset, touches no other buffer, and does nothing when the offset is 0. |
| Compaction.CompactInPlace | crates/wasm-tls/src/lib.rs:205-212 | The in-place `copy_within` loop, reading from the buffer it overwrites, followed by `truncate`, yields the same session as `Compact`. |
| Compaction.CompactIdempotent | crates/wasm-tls/src/lib.rs:205-212 | Compacting twice is the same as compacting once. |
| Compaction.AfterRead | crates/wasm-tls/src/lib.rs:106-116 | The post-read policy never changes the unconsumed bytes or grows the buffer. Afterwards the consumed prefix is either gone or shorter than the buffer and below 16 KiB or below half the length. The offset is kept or reset to 0, and an already tidy buffer is left unchanged. |
| Compaction.ClearIsCompaction | crates/wasm-tls/src/lib.rs:107-114 | Clearing a fully consumed buffer gives the same session as compacting it. |
| Compaction.AfterReadIdempotent | crates/wasm-tls/src/lib.rs:106-116 | Applying the post-read policy twice is the same as once. |
| Connection.Admit | crates/wasm-tls/src/lib.rs:88-97 | The bound check, compaction and append succeed exactly when unconsumed plus new bytes fit in 128 KiB. On success the engine is offered the previous unconsumed bytes followed by the data, and the buffer is at most 128 KiB. On overflow the session is the compacted one, with the data not appended. |
| Connection.FeedAtBoundIsAdmitted | crates/wasm-tls/src/lib.rs:88-94 | A feed that brings the unconsumed bytes to exactly 128 KiB is admitted and the whole 128 KiB is offered to the engine. |
| Connection.ReceivePlaintext | crates/wasm-tls/src/lib.rs:126-136 | Resize by the announced count, overwrite with the bytes the reader wrote, then truncate: the result is the old buffer followed by exactly those bytes. |
| Connection.Feed | crates/wasm-tls/src/lib.rs:87-139 | Fails with BufferOverflow exactly at the overflow boundary, and then leaves the compacted session. Each failing engine step reports its own error: a failed read_tls gives ReadTlsError, a failed process_new_packets gives TlsError, and a failed plaintext read gives PlaintextReadError. Succeeds exactly when no engine step fails, returning the engine's wants_write. Leaves the offered bytes minus the consumed prefix waiting. Keeps the representation invariant on every path, and establishes it on success. Only appends to plaintext: nothing when 0 bytes are ready, the reader's bytes otherwise, zero padding on a failed plaintext read. Never touches the outgoing buffer. |
| Connection.WritePlaintext | crates/wasm-tls/src/lib.rs:143-149 | Leaves every adapter buffer unchanged. Fails exactly when the engine refuses the data, and otherwise returns its wants_write answer. |
| Connection.FlushOutgoingTls | crates/wasm-tls/src/lib.rs:153-162 | Returns exactly the bytes the engine wrote during this call and leaves the outgoing buffer empty. On failure the partial output stays buffered. The incoming and plaintext buffers are unchanged. |
| Connection.FlushDiscardsStale | crates/wasm-tls/src/lib.rs:154-157 | A flush's result and after-state do not depend on what the outgoing buffer held before, because the buffer is cleared first. |
| Connection.FlushTwice | crates/wasm-tls/src/lib.rs:153-162 | After a successful flush, a second flush with nothing pending returns empty and changes nothing. |
| Connection.TakePlaintext | crates/wasm-tls/src/lib.rs:165-167 | Returns the whole plaintext buffer, leaves it empty and touches no other buffer. |
| Connection.TakeTwice | crates/wasm-tls/src/lib.rs:165-167 | A second take with nothing in between returns empty and changes nothing. |
| Stream.ApplyConservesCiphertext | crates/wasm-tls/src/lib.rs:94-116 | For any single call, the unconsumed bytes before it followed by the accepted data equal the bytes the engine consumed followed by the unconsumed bytes after it. |
| Stream.ApplyConservesPlaintext | crates/wasm-tls/src/lib.rs:126-136 | For any single call, the buffered plaintext followed by the bytes the call appended equals what was taken followed by what stays buffered. The appended bytes are the reader's output, or zero padding after a failed read. |
| Stream.CiphertextConserved | crates/wasm-tls/src/lib.rs:94-116 | Over any sequence of calls, all accepted ciphertext is either consumed by the engine or still waiting, in order. Compaction and clearing never lose, duplicate or reorder a byte. |
| Stream.PlaintextInOrder | crates/wasm-tls/src/lib.rs:126-167 | Over any sequence of calls, every byte put into the plaintext buffer is either returned to the upper layer by a take or still buffered, in order. These bytes are what the engine's reader wrote, plus the zero padding a failed plaintext read leaves (lines 129-134). |
| Stream.PadFreeAppendsReaderBytes | crates/wasm-tls/src/lib.rs:126-136 | When no call has a failed plaintext read, the bytes appended to the plaintext buffer are exactly the bytes the engine's reader wrote. |
| Stream.FailedReadLeavesPadding | crates/wasm-tls/src/lib.rs:127-134 | A feed whose plaintext read fails after 3 bytes were announced returns PlaintextReadError, and the next take hands out three zero bytes the reader never wrote. |
| Stream.WriteLeavesRunUnchanged | crates/wasm-tls/src/lib.rs:143-149 | Inserting a write_plaintext call into any sequence of calls does not change the session the sequence ends in. |
| Stream.OutgoingOnlyByFlush | crates/wasm-tls/src/lib.rs:153-162 | Over any sequence of calls without a flush, the outgoing buffer is unchanged: only flush_outgoing_tls writes it, so it never accumulates between flushes. |
| Stream.InvariantKept | crates/wasm-tls/src/lib.rs:87-116 | Every sequence of calls, failing ones included, keeps offset <= length <= 128 KiB and a tidy consumed prefix. |
| Stream.FromFresh | crates/wasm-tls/src/lib.rs:76-139 | From a new connection, the fed stream equals consumed plus waiting bytes, the bytes appended to the plaintext buffer equal taken plus buffered bytes, and the invariant holds. |

## Left out

- rustls itself (`read_tls`, `process_new_packets`, `reader().read`, `writer().write_all`, `write_tls`, the handshake, record layer and cryptography) is not modelled. Its answers are inputs, constrained only by the bounds in `Engine.FeedOracle.Within`.
- The status queries `is_handshaking`, `negotiated_alpn`, `wants_read`, `wants_write` and `send_close_notify` (lines 170-195) only forward to rustls and hold no adapter state. The final `wants_write` of a feed or write is an input.
- The process-wide root store and crypto provider (lines 10-30) are lazy global initialisation of foreign code.
- The constructor's configuration is not modelled: the `ClientConfig` builder, session resumption, the ALPN comma split with `trim`, and `ServerName::try_from` (lines 53-75). `Buffers.Fresh` models only the buffers it creates.
- Capacity hints (`Vec::with_capacity`), error message strings, the wasm-bindgen glue and `wasm_tls_version` have no behaviour to verify.
- Connection.Feed: `usize` additions (`len + data.len()`, `start + pt_bytes`, `offset + bytes_read`) are unbounded integers in the model. On wasm32 the sums of buffer lengths cannot exceed the 4 GiB address space in practice.
- Handshake gating and chunking independence of the decrypted output depend on rustls, so they are not stated. The model proves the adapter's share of them: the engine always sees the received ciphertext in order (`Stream.CiphertextConserved`), and plaintext is delivered in the order it was appended to the buffer (`Stream.PlaintextInOrder`).
- The incoming buffer is the only bounded one. `plaintext_out` grows without limit if never taken. `outgoing_tls` holds at most the output of one `write_tls` call (`Stream.OutgoingOnlyByFlush`). The ciphertext rustls queues internally is not capped if the caller never flushes. The model caps neither buffer.

=== FILE: buffers.dfy ===
/**
  The state of one TLS client connection as the adapter sees it: the three
  byte buffers and the read offset into the incoming one. The TLS engine the
  connection wraps is not part of this record; its answers are supplied to
  each operation as values (see module Engine).
 */
module Buffers {

  type byte = bv8

  /** Initial capacity of every buffer, and the least consumed prefix worth compacting. */
  const IO_BUF_CAP: nat := 16 * 1024

  /** Bound on the bytes the incoming ciphertext buffer may hold. */
  const MAX_TLS_BUF_SIZE: nat := 128 * 1024

  /**
    incoming:  ciphertext received from the network; its first `offset` bytes
               were already handed to the engine.
    outgoing:  ciphertext produced by the engine, waiting to be sent.
    plaintext: decrypted data waiting for the upper layer.
   */
  datatype Session = Session(
    incoming: seq<byte>,
    offset: nat,
    outgoing: seq<byte>,
    plaintext: seq<byte>)
  {
    /** The offset points into (or just past) the incoming buffer. */
    predicate Valid() {
      offset <= |incoming|
    }

    /** Ciphertext received but not yet consumed by the engine. */
    function Unconsumed(): seq<byte>
      requires Valid()
    {
      incoming[offset..]
    }

    /**
      The consumed prefix is either gone, or shorter than the buffer and
      small: below IO_BUF_CAP or below half the buffer.
     */
    predicate Tidy() {
      offset == 0 || (offset < |incoming| && (offset < IO_BUF_CAP || offset < |incoming| / 2))
    }

    /** The representation invariant every adapter operation keeps. */
    predicate Inv() {
      && offset <= |incoming| <= MAX_TLS_BUF_SIZE
      && Tidy()
    }
  }

  /** The error each failing call reports; one per error site of the adapter. */
  datatype Error =
    | BufferOverflow       // incoming ciphertext would exceed MAX_TLS_BUF_SIZE
    | ReadTlsError         // the engine refused the offered ciphertext
    | TlsError             // the engine failed processing records
    | PlaintextReadError   // the engine failed handing out decrypted bytes
    | WriteError           // the engine refused plaintext from the upper layer
    | WriteTlsError        // the engine failed serialising outgoing records

  datatype Result<T> = Ok(value: T) | Err(error: Error)

  /** A call's outcome: the session after the call, whether or not it failed, and its result. */
  datatype Step<T> = Step(session: Session, result: Result<T>)

  /** The buffers of a newly constructed connection. */
  function Fresh(): (s: Session)
    ensures s.Inv()
    ensures s.Unconsumed() == [] && s.outgoing == [] && s.plaintext == []
  {
    Session([], 0, [], [])
  }
}

=== FILE: compaction.dfy ===
/**
  Reclaiming the consumed prefix of the incoming ciphertext buffer: the
  compaction routine and the policy applied after every engine read.
 */
module Compaction {

  import opened Buffers

  /**
    compact_incoming_tls: drop the consumed prefix so the unconsumed bytes
    start at offset 0. Nothing happens when the offset is already 0.
   */
  function Compact(s: Session): (r: Session)
    requires s.Valid()
    ensures r.Valid() && r.offset == 0
    ensures r.Unconsumed() == s.Unconsumed()
    ensures |r.incoming| == |s.incoming| - s.offset
    ensures r.outgoing == s.outgoing && r.plaintext == s.plaintext
    ensures s.offset == 0 ==> r == s
  {
    if s.offset > 0 then
      s.(incoming := s.incoming[s.offset..], offset := 0)
    else
      s
  }

  /** Compacting a compacted session changes nothing. */
  lemma CompactIdempotent(s: Session)
    requires s.Valid()
    ensures Compact(Compact(s)) == Compact(s)
  {
  }

  /**
    The same routine as it runs in place: `copy_within(offset.., 0)` moves
    the unconsumed bytes to the front one at a time, each read from the
    buffer being overwritten, then `truncate(remaining)` drops the tail.
    Reading from the buffer under modification is sound because every
    source position lies at or after the position being written.
   */
  method CompactInPlace(s: Session) returns (r: Session)
    requires s.Valid()
    ensures r == Compact(s)
  {
    if s.offset == 0 {
      return s;
    }
    var buf := s.incoming;
    var remaining := |buf| - s.offset;
    var i := 0;
    while i < remaining
      invariant 0 <= i <= remaining
      invariant |buf| == |s.incoming|
      invariant forall j :: 0 <= j < i ==> buf[j] == s.incoming[s.offset + j]
      invariant forall j :: i <= j < |buf| ==> buf[j] == s.incoming[j]
    {
      buf := buf[i := buf[s.offset + i]];
      i := i + 1;
    }
    buf := buf[..remaining];
    r := s.(incoming := buf, offset := 0);
  }

  /**
    The policy after the engine has read: a fully consumed buffer is
    cleared; a consumed prefix of at least IO_BUF_CAP bytes that is also at
    least half the buffer is compacted; otherwise the buffer stays as it is.

    Stated by what it guarantees: the unconsumed bytes are untouched, the
    result is Tidy, the offset is either kept or reset to 0, and a session
    that is already Tidy is left alone.
   */
  function AfterRead(s: Session): (r: Session)
    requires s.Valid()
    ensures r.Valid() && r.Tidy()
    ensures r.Unconsumed() == s.Unconsumed()
    ensures |r.incoming| <= |s.incoming|
    ensures r.offset == s.offset || r.offset == 0
    ensures s.Tidy() ==> r == s
    ensures r.outgoing == s.outgoing && r.plaintext == s.plaintext
  {
    if s.offset > 0 then
      if s.offset >= |s.incoming| then
        s.(incoming := [], offset := 0)
      else if s.offset >= IO_BUF_CAP && s.offset >= |s.incoming| / 2 then
        Compact(s)
      else
        s
    else
      s
  }

  /** Clearing a fully consumed buffer is exactly a compaction of it. */
  lemma ClearIsCompaction(s: Session)
    requires s.Valid() && s.offset == |s.incoming|
    ensures AfterRead(s) == Compact(s)
  {
  }

  /** Applying the policy twice is the same as once. */
  lemma AfterReadIdempotent(s: Session)
    requires s.Valid()
    ensures AfterRead(AfterRead(s)) == AfterRead(s)
  {
  }
}

=== FILE: connection.dfy ===
/**
  The adapter operations of one TLS client connection: feeding received
  ciphertext, submitting plaintext, draining outgoing ciphertext and taking
  decrypted plaintext. Engine calls are replaced by the oracle answers of
  module Engine.
 */
module Connection {

  import opened Buffers
  import opened Compaction
  import opened Engine

  /** Would `data` push the unconsumed ciphertext past MAX_TLS_BUF_SIZE? */
  predicate Overflows(s: Session, data: seq<byte>)
    requires s.Valid()
  {
    |s.Unconsumed()| + |data| > MAX_TLS_BUF_SIZE
  }

  /**
    The admission step of a feed: test the buffer length against the bound,
    compact once and test again, then append. On success the value is the
    slice handed to the engine's read_tls.
   */
  function Admit(s: Session, data: seq<byte>): (r: Step<seq<byte>>)
    requires s.Valid()
    ensures r.session.Valid()
    ensures r.result.Ok? <==> !Overflows(s, data)
    ensures r.result.Err? ==> r.result.error == BufferOverflow && r.session == Compact(s)
    ensures r.result.Ok? ==> r.result.value == s.Unconsumed() + data == r.session.Unconsumed()
    ensures r.result.Ok? ==> |r.session.incoming| <= MAX_TLS_BUF_SIZE
    ensures s.Tidy() ==> r.session.Tidy()
    ensures r.session.outgoing == s.outgoing && r.session.plaintext == s.plaintext
  {
    if |s.incoming| + |data| > MAX_TLS_BUF_SIZE then
      var c := Compact(s);
      if |c.incoming| + |data| > MAX_TLS_BUF_SIZE then
        Step(c, Err(BufferOverflow))
      else
        Append(c, data)
    else
      Append(s, data)
  }

  /** extend_from_slice, then borrow the unconsumed slice for the engine. */
  function Append(s: Session, data: seq<byte>): (r: Step<seq<byte>>)
    requires s.Valid()
  {
    var a := s.(incoming := s.incoming + data);
    Step(a, Ok(a.incoming[a.offset..]))
  }

  /** `n` zero bytes. */
  function Zeros(n: nat): (z: seq<byte>)
    ensures |z| == n
  {
    seq(n, _ => 0)
  }

  /** Vec::resize: cut to `n` bytes, or pad with `fill` up to `n` bytes. */
  function Resize(v: seq<byte>, n: nat, fill: byte): (r: seq<byte>)
    ensures |r| == n
  {
    if n <= |v| then v[..n] else v + seq(n - |v|, _ => fill)
  }

  /** Copying `src` over the bytes of `v` from position `at` on. */
  function Overwrite(v: seq<byte>, at: nat, src: seq<byte>): (r: seq<byte>)
    requires at + |src| <= |v|
  {
    v[..at] + src + v[at + |src|..]
  }

  /** Vec::truncate: keep the first `n` bytes; no effect when `n` is not below the length. */
  function Truncate(v: seq<byte>, n: nat): (r: seq<byte>)
  {
    if n < |v| then v[..n] else v
  }

  /**
    Receiving decrypted bytes into the plaintext buffer: grow it by the
    `ready` bytes the engine announced, let the reader write `bytes` into the
    new region, truncate to what was written. The result is the old buffer
    followed by exactly the bytes written; nothing already buffered changes.
   */
  function ReceivePlaintext(buf: seq<byte>, ready: nat, bytes: seq<byte>): (r: seq<byte>)
    requires |bytes| <= ready
    ensures r == buf + bytes
  {
    var start := |buf|;
    var grown := Resize(buf, start + ready, 0);
    assert grown[..start] == buf;
    Truncate(Overwrite(grown, start, bytes), start + |bytes|)
  }

  /**
    feed_ciphertext: admit `data`, let the engine read from the unconsumed
    slice and advance the offset by what it consumed, apply the post-read
    policy, let the engine process records and move any decrypted bytes
    into the plaintext buffer. Every failure returns the session as it
    stands at the failing step.
   */
  function Feed(s: Session, data: seq<byte>, eng: FeedOracle): (r: Step<bool>)
    requires s.Valid()
    requires eng.Within(|s.Unconsumed()| + |data|)
    ensures r.session.Valid()
    // overflow: exactly when the unconsumed bytes plus data exceed the bound
    ensures r.result == Err(BufferOverflow) <==> Overflows(s, data)
    ensures Overflows(s, data) ==> r.session == Compact(s)
    // the call succeeds exactly when no engine step fails
    ensures r.result.Ok? <==>
              && !Overflows(s, data)
              && eng.read.ReadOk?
              && eng.process.Processed?
              && (eng.process.plaintextBytes > 0 ==> eng.plain.PlainOk?)
    ensures r.result.Ok? ==> r.result.value == eng.wantsWrite
    // each failing engine step reports its own error
    ensures !Overflows(s, data) && eng.read.ReadFailed? ==> r.result == Err(ReadTlsError)
    ensures !Overflows(s, data) && eng.read.ReadOk? && eng.process.ProcessFailed? ==>
              r.result == Err(TlsError)
    ensures && !Overflows(s, data) && eng.read.ReadOk? && eng.process.Processed?
            && eng.process.plaintextBytes > 0 && eng.plain.PlainFailed? ==>
              r.result == Err(PlaintextReadError)
    // the unconsumed ciphertext after the call
    ensures !Overflows(s, data) && eng.read.ReadFailed? ==>
              r.session.Unconsumed() == s.Unconsumed() + data
    ensures !Overflows(s, data) && eng.read.ReadOk? ==>
              r.session.Unconsumed() == (s.Unconsumed() + data)[eng.read.consumed..]
    // the representation invariant
    ensures r.result.Ok? ==> r.session.Inv()
    ensures s.Inv() ==> r.session.Inv()
    // plaintext is only ever appended to
    ensures s.plaintext <= r.session.plaintext
    ensures r.result.Ok? && eng.process.Processed? && eng.process.plaintextBytes == 0 ==>
              r.session.plaintext == s.plaintext
    ensures r.result.Ok? && eng.process.Processed? && eng.process.plaintextBytes > 0 && eng.plain.PlainOk? ==>
              r.session.plaintext == s.plaintext + eng.plain.bytes
    ensures r.result.Err? && r.result.error != PlaintextReadError ==>
              r.session.plaintext == s.plaintext
    ensures r.result == Err(PlaintextReadError) && eng.process.Processed? ==>
              r.session.plaintext == s.plaintext + Zeros(eng.process.plaintextBytes)
    ensures r.session.outgoing == s.outgoing
  {
    var admitted := Admit(s, data);
    if admitted.result.Err? then
      Step(admitted.session, Err(admitted.result.error))
    else
      var a := admitted.session;
      match eng.read
      case ReadFailed => Step(a, Err(ReadTlsError))
      case ReadOk(k) =>
        var b := AfterRead(a.(offset := a.offset + k));
        match eng.process
        case ProcessFailed => Step(b, Err(TlsError))
        case Processed(ready) =>
          if ready > 0 then
            match eng.plain
            case PlainFailed =>
              var padded := Resize(b.plaintext, |b.plaintext| + ready, 0);
              assert padded == b.plaintext + Zeros(ready);
              Step(b.(plaintext := padded), Err(PlaintextReadError))
            case PlainOk(bytes) =>
              Step(b.(plaintext := ReceivePlaintext(b.plaintext, ready, bytes)), Ok(eng.wantsWrite))
          else
            Step(b, Ok(eng.wantsWrite))
  }

  /**
    A feed that brings the unconsumed ciphertext to exactly
    MAX_TLS_BUF_SIZE is admitted and offered to the engine whole.
   */
  lemma FeedAtBoundIsAdmitted(s: Session, data: seq<byte>)
    requires s.Valid()
    requires |s.Unconsumed()| + |data| == MAX_TLS_BUF_SIZE
    ensures Admit(s, data).result == Ok(s.Unconsumed() + data)
    ensures |Admit(s, data).session.Unconsumed()| == MAX_TLS_BUF_SIZE
  {
  }

  /**
    write_plaintext: hand `data` to the engine's writer. The adapter's
    buffers are untouched; the data lives in the engine from here on.
   */
  function WritePlaintext(s: Session, data: seq<byte>, eng: WriteAll): (r: Step<bool>)
    ensures r.session == s
    ensures r.result.Ok? <==> eng.Accepted?
    ensures r.result.Ok? ==> r.result.value == eng.wantsWrite
    ensures r.result.Err? ==> r.result.error == WriteError
  {
    match eng
    case Refused => Step(s, Err(WriteError))
    case Accepted(wants) => Step(s, Ok(wants))
  }

  /**
    flush_outgoing_tls: clear the outgoing buffer, let the engine write its
    pending records into it, and hand the buffer to the caller, keeping an
    empty one. On failure the partial output stays in the buffer.
   */
  function FlushOutgoingTls(s: Session, eng: WriteTls): (r: Step<seq<byte>>)
    ensures r.result.Ok? <==> eng.Written?
    ensures r.result.Ok? ==> r.result.value == eng.bytes && r.session.outgoing == []
    ensures r.result.Err? ==> r.result.error == WriteTlsError && r.session.outgoing == eng.partial
    ensures r.session.incoming == s.incoming && r.session.offset == s.offset
    ensures r.session.plaintext == s.plaintext
  {
    var cleared := s.(outgoing := []);
    match eng
    case WriteFailed(partial) =>
      Step(cleared.(outgoing := cleared.outgoing + partial), Err(WriteTlsError))
    case Written(bytes) =>
      var filled := cleared.(outgoing := cleared.outgoing + bytes);
      Step(filled.(outgoing := []), Ok(filled.outgoing))
  }

  /**
    What a flush returns does not depend on what the outgoing buffer held
    before: stale bytes are discarded, never sent twice.
   */
  lemma FlushDiscardsStale(s: Session, stale: seq<byte>, eng: WriteTls)
    ensures FlushOutgoingTls(s.(outgoing := stale), eng) == FlushOutgoingTls(s, eng)
  {
  }

  /** A second flush with nothing pending in the engine returns nothing. */
  lemma FlushTwice(s: Session, eng: WriteTls)
    requires eng.Written?
    ensures var first := FlushOutgoingTls(s, eng);
            FlushOutgoingTls(first.session, Written([])) == Step(first.session, Ok([]))
  {
  }

  /**
    take_plaintext: hand the whole plaintext buffer to the caller and keep
    an empty one.
   */
  function TakePlaintext(s: Session): (r: Step<seq<byte>>)
    ensures r.result == Ok(s.plaintext) && r.session.plaintext == []
    ensures r.session.incoming == s.incoming && r.session.offset == s.offset
    ensures r.session.outgoing == s.outgoing
  {
    Step(s.(plaintext := []), Ok(s.plaintext))
  }

  /** A second take with nothing in between returns nothing. */
  lemma TakeTwice(s: Session)
    ensures var first := TakePlaintext(s);
            TakePlaintext(first.session) == Step(first.session, Ok([]))
  {
  }
}

=== FILE: engine.dfy ===
/**
  The TLS engine the adapter drives, reduced to the answers it gives. Each
  adapter operation receives the engine's answers for that call as a value;
  the only thing assumed about them is the bound each engine call obeys.
 */
module Engine {

  import opened Buffers

  /** read_tls: how many bytes of the offered slice the engine consumed. */
  datatype ReadTls = ReadOk(consumed: nat) | ReadFailed

  /** process_new_packets: how many decrypted bytes are ready to be read. */
  datatype Process = Processed(plaintextBytes: nat) | ProcessFailed

  /** The plaintext reader: the bytes it wrote into the space it was given. */
  datatype PlainRead = PlainOk(bytes: seq<byte>) | PlainFailed

  /**
    The engine's answers during one feed of ciphertext; `wantsWrite` is its
    answer to the final wants_write query.
   */
  datatype FeedOracle = FeedOracle(read: ReadTls, process: Process, plain: PlainRead, wantsWrite: bool)
  {
    /**
      The engine consumes at most the `offered` bytes it was given, and the
      plaintext reader writes at most the space it was given.
     */
    predicate Within(offered: nat) {
      && (read.ReadOk? ==> read.consumed <= offered)
      && (process.Processed? && plain.PlainOk? ==> |plain.bytes| <= process.plaintextBytes)
    }
  }

  /** writer().write_all: accepted (with the following wants_write answer) or refused. */
  datatype WriteAll = Accepted(wantsWrite: bool) | Refused

  /**
    write_tls into the outgoing buffer: the bytes written, and on failure
    the bytes written before it failed.
   */
  datatype WriteTls = Written(bytes: seq<byte>) | WriteFailed(partial: seq<byte>)
}

=== FILE: stream.dfy ===
/**
  Sequences of calls on one connection. Whatever the chunking, the
  compactions and the failures along the way, every ciphertext byte the
  connection accepted has either been consumed by the engine or is still
  waiting, in the order received; every byte put into the plaintext buffer
  (what the engine's reader wrote, plus the zero padding a failed plaintext
  read leaves) has either been taken by the upper layer or is still
  buffered, in order.
 */
module Stream {

  import opened Buffers
  import opened Engine
  import opened Connection

  /** One call the upper layer makes on the connection, with the engine's answers to it. */
  datatype Call =
    | FeedCall(data: seq<byte>, eng: FeedOracle)
    | WriteCall(data: seq<byte>, write: WriteAll)
    | FlushCall(flush: WriteTls)
    | TakeCall

  /** The call happens on a valid session and the engine's answers keep their bounds there. */
  predicate Admissible(s: Session, c: Call) {
    s.Valid() && (c.FeedCall? ==> c.eng.Within(|s.Unconsumed()| + |c.data|))
  }

  /** The session after the call, whether the call succeeded or not. */
  function Apply(s: Session, c: Call): (r: Session)
    requires Admissible(s, c)
    ensures r.Valid()
  {
    match c
    case FeedCall(data, eng) => Feed(s, data, eng).session
    case WriteCall(data, write) => WritePlaintext(s, data, write).session
    case FlushCall(flush) => FlushOutgoingTls(s, flush).session
    case TakeCall => TakePlaintext(s).session
  }

  /** Every call of the sequence is admissible where it happens. */
  predicate Honest(s: Session, calls: seq<Call>)
    decreases |calls|
  {
    && s.Valid()
    && (|calls| > 0 ==> Admissible(s, calls[0]) && Honest(Apply(s, calls[0]), calls[1..]))
  }

  function Run(s: Session, calls: seq<Call>): (r: Session)
    requires Honest(s, calls)
    ensures r.Valid()
    decreases |calls|
  {
    if |calls| == 0 then s else Run(Apply(s, calls[0]), calls[1..])
  }

  /** Ciphertext the call added to the incoming stream: the fed data, unless it overflowed. */
  function Received(s: Session, c: Call): seq<byte>
    requires Admissible(s, c)
  {
    if c.FeedCall? && !Overflows(s, c.data) then c.data else []
  }

  /** Ciphertext the engine consumed during the call. */
  function Consumed(s: Session, c: Call): seq<byte>
    requires Admissible(s, c)
  {
    if c.FeedCall? && !Overflows(s, c.data) && c.eng.read.ReadOk? then
      (s.Unconsumed() + c.data)[..c.eng.read.consumed]
    else
      []
  }

  /**
    Bytes the call appended to the plaintext buffer: what the engine's
    reader wrote, or the zero padding the resize left when the read failed.
   */
  function Appended(s: Session, c: Call): seq<byte>
    requires Admissible(s, c)
  {
    if && c.FeedCall? && !Overflows(s, c.data)
       && c.eng.read.ReadOk? && c.eng.process.Processed? && c.eng.process.plaintextBytes > 0
    then
      match c.eng.plain
      case PlainOk(bytes) => bytes
      case PlainFailed => Zeros(c.eng.process.plaintextBytes)
    else
      []
  }

  /** Plaintext the engine's reader wrote during the call; nothing when the read failed. */
  function ReaderBytes(s: Session, c: Call): seq<byte>
    requires Admissible(s, c)
  {
    if && c.FeedCall? && !Overflows(s, c.data)
       && c.eng.read.ReadOk? && c.eng.process.Processed? && c.eng.process.plaintextBytes > 0
       && c.eng.plain.PlainOk?
    then c.eng.plain.bytes
    else []
  }

  function ReaderBytesAll(s: Session, calls: seq<Call>): seq<byte>
    requires Honest(s, calls)
    decreases |calls|
  {
    if |calls| == 0 then [] else ReaderBytes(s, calls[0]) + ReaderBytesAll(Apply(s, calls[0]), calls[1..])
  }

  /** The call is a feed whose plaintext read failed after bytes were announced. */
  predicate PadsPlaintext(s: Session, c: Call)
    requires Admissible(s, c)
  {
    && c.FeedCall? && !Overflows(s, c.data)
    && c.eng.read.ReadOk? && c.eng.process.Processed? && c.eng.process.plaintextBytes > 0
    && c.eng.plain.PlainFailed?
  }

  /** No call of the sequence leaves zero padding in the plaintext buffer. */
  predicate PadFree(s: Session, calls: seq<Call>)
    requires Honest(s, calls)
    decreases |calls|
  {
    |calls| > 0 ==> !PadsPlaintext(s, calls[0]) && PadFree(Apply(s, calls[0]), calls[1..])
  }

  /** Plaintext the call handed to the upper layer. */
  function Delivered(s: Session, c: Call): seq<byte> {
    if c.TakeCall? then TakePlaintext(s).result.value else []
  }

  function ReceivedAll(s: Session, calls: seq<Call>): seq<byte>
    requires Honest(s, calls)
    decreases |calls|
  {
    if |calls| == 0 then [] else Received(s, calls[0]) + ReceivedAll(Apply(s, calls[0]), calls[1..])
  }

  function ConsumedAll(s: Session, calls: seq<Call>): seq<byte>
    requires Honest(s, calls)
    decreases |calls|
  {
    if |calls| == 0 then [] else Consumed(s, calls[0]) + ConsumedAll(Apply(s, calls[0]), calls[1..])
  }

  function AppendedAll(s: Session, calls: seq<Call>): seq<byte>
    requires Honest(s, calls)
    decreases |calls|
  {
    if |calls| == 0 then [] else Appended(s, calls[0]) + AppendedAll(Apply(s, calls[0]), calls[1..])
  }

  function DeliveredAll(s: Session, calls: seq<Call>): seq<byte>
    requires Honest(s, calls)
    decreases |calls|
  {
    if |calls| == 0 then [] else Delivered(s, calls[0]) + DeliveredAll(Apply(s, calls[0]), calls[1..])
  }

  /** One call: received ciphertext is consumed or left waiting, in order. */
  lemma ApplyConservesCiphertext(s: Session, c: Call)
    requires Admissible(s, c)
    ensures s.Unconsumed() + Received(s, c) == Consumed(s, c) + Apply(s, c).Unconsumed()
  {
    if c.FeedCall? && !Overflows(s, c.data) && c.eng.read.ReadOk? {
      var offered := s.Unconsumed() + c.data;
      assert offered == offered[..c.eng.read.consumed] + offered[c.eng.read.consumed..];
    }
  }

  /** One call: appended plaintext is delivered or left buffered, in order. */
  lemma ApplyConservesPlaintext(s: Session, c: Call)
    requires Admissible(s, c)
    ensures s.plaintext + Appended(s, c) == Delivered(s, c) + Apply(s, c).plaintext
  {
  }

  /** Chaining two conservation equations: the step that links one call to the rest of a run. */
  lemma Splice(before: seq<byte>, added: seq<byte>, gone: seq<byte>, mid: seq<byte>,
               later: seq<byte>, goneLater: seq<byte>, after: seq<byte>)
    requires before + added == gone + mid
    requires mid + later == goneLater + after
    ensures before + (added + later) == (gone + goneLater) + after
  {
    calc {
      before + (added + later);
      (before + added) + later;
      (gone + mid) + later;
      gone + (mid + later);
      gone + (goneLater + after);
    }
  }

  /**
    Stream conservation: the ciphertext waiting at the start, followed by all
    ciphertext accepted since, is exactly what the engine consumed followed
    by what is waiting now. Compaction and clearing never lose, duplicate or
    reorder a byte.
   */
  lemma {:induction false} CiphertextConserved(s: Session, calls: seq<Call>)
    requires Honest(s, calls)
    ensures s.Unconsumed() + ReceivedAll(s, calls) == ConsumedAll(s, calls) + Run(s, calls).Unconsumed()
    decreases |calls|
  {
    if |calls| > 0 {
      var c, rest := calls[0], calls[1..];
      var t := Apply(s, c);
      ApplyConservesCiphertext(s, c);
      CiphertextConserved(t, rest);
      Splice(s.Unconsumed(), Received(s, c), Consumed(s, c), t.Unconsumed(),
             ReceivedAll(t, rest), ConsumedAll(t, rest), Run(t, rest).Unconsumed());
    }
  }

  /**
    In-order delivery: the plaintext buffered at the start, followed by all
    bytes appended since (the reader's output and any zero padding left by a
    failed plaintext read), is exactly what the upper layer took followed by
    what is buffered now.
   */
  lemma {:induction false} PlaintextInOrder(s: Session, calls: seq<Call>)
    requires Honest(s, calls)
    ensures s.plaintext + AppendedAll(s, calls) == DeliveredAll(s, calls) + Run(s, calls).plaintext
    decreases |calls|
  {
    if |calls| > 0 {
      var c, rest := calls[0], calls[1..];
      var t := Apply(s, c);
      ApplyConservesPlaintext(s, c);
      PlaintextInOrder(t, rest);
      Splice(s.plaintext, Appended(s, c), Delivered(s, c), t.plaintext,
             AppendedAll(t, rest), DeliveredAll(t, rest), Run(t, rest).plaintext);
    }
  }

  /** Every call, failing or not, keeps the representation invariant. */
  lemma {:induction false} InvariantKept(s: Session, calls: seq<Call>)
    requires Honest(s, calls) && s.Inv()
    ensures Run(s, calls).Inv()
    decreases |calls|
  {
    if |calls| > 0 {
      InvariantKept(Apply(s, calls[0]), calls[1..]);
    }
  }

  /**
    From a new connection: every ciphertext byte ever accepted was consumed
    by the engine or is still waiting, and every byte appended to the
    plaintext buffer was taken or is still buffered, each in order; the
    invariant holds throughout.
   */
  lemma FromFresh(calls: seq<Call>)
    requires Honest(Fresh(), calls)
    ensures ReceivedAll(Fresh(), calls) == ConsumedAll(Fresh(), calls) + Run(Fresh(), calls).Unconsumed()
    ensures AppendedAll(Fresh(), calls) == DeliveredAll(Fresh(), calls) + Run(Fresh(), calls).plaintext
    ensures Run(Fresh(), calls).Inv()
  {
    CiphertextConserved(Fresh(), calls);
    PlaintextInOrder(Fresh(), calls);
    InvariantKept(Fresh(), calls);
    assert Fresh().Unconsumed() == [] && Fresh().plaintext == [];
  }

  /**
    Without a failed plaintext read, the bytes appended to the plaintext
    buffer are exactly the bytes the engine's reader wrote, so in-order
    delivery is delivery of the reader's output.
   */
  lemma {:induction false} PadFreeAppendsReaderBytes(s: Session, calls: seq<Call>)
    requires Honest(s, calls) && PadFree(s, calls)
    ensures AppendedAll(s, calls) == ReaderBytesAll(s, calls)
    decreases |calls|
  {
    if |calls| > 0 {
      PadFreeAppendsReaderBytes(Apply(s, calls[0]), calls[1..]);
    }
  }

  /**
    A failed plaintext read does leave bytes the reader never wrote: the
    zero padding of the resize, which the next take hands out.
   */
  lemma FailedReadLeavesPadding(data: seq<byte>)
    requires |data| <= MAX_TLS_BUF_SIZE
    ensures var eng := FeedOracle(ReadOk(0), Processed(3), PlainFailed, false);
            var fed := Feed(Fresh(), data, eng);
            && fed.result == Err(PlaintextReadError)
            && TakePlaintext(fed.session).result == Ok([0, 0, 0])
  {
    var eng := FeedOracle(ReadOk(0), Processed(3), PlainFailed, false);
    var fed := Feed(Fresh(), data, eng);
    assert fed.result == Err(PlaintextReadError);
    assert fed.session.plaintext == [] + Zeros(3);
    var zeros: seq<byte> := [0, 0, 0];
    assert Zeros(3) == zeros;
    assert fed.session.plaintext == zeros;
    assert TakePlaintext(fed.session).result == Ok([0, 0, 0]);
  }

  /**
    write_plaintext is invisible to the adapter's buffers: a run with a
    write inserted ends in the same session as the run without it.
   */
  lemma WriteLeavesRunUnchanged(s: Session, data: seq<byte>, write: WriteAll, calls: seq<Call>)
    requires Honest(s, [WriteCall(data, write)] + calls)
    ensures Honest(s, calls)
    ensures Run(s, [WriteCall(data, write)] + calls) == Run(s, calls)
  {
    var all := [WriteCall(data, write)] + calls;
    assert all[1..] == calls;
  }
  /**
    Only flush_outgoing_tls writes the outgoing buffer: a run without a
    flush leaves it as it was, so it never accumulates between flushes.
   */
  lemma {:induction false} OutgoingOnlyByFlush(s: Session, calls: seq<Call>)
    requires Honest(s, calls)
    requires forall i :: 0 <= i < |calls| ==> !calls[i].FlushCall?
    ensures Run(s, calls).outgoing == s.outgoing
    decreases |calls|
  {
    if |calls| > 0 {
      assert !calls[0].FlushCall?;
      OutgoingOnlyByFlush(Apply(s, calls[0]), calls[1..]);
    }
  }
}
